=== FILE: README.md ===
# X_based_china crawler and renderer, modelled in Dafny

The repository crawls the follow graph of an X/Twitter account directory.

- `main.py` pops screen names from a FIFO queue.
- For each account it pages through the account's followings (`get_followings`) and looks up every non-empty screen name (`get_userinfo`).
- Every looked-up account whose `about_profile.account_based_in` is `"China"` is appended, once, to a JSON-lines output file and counted as a hit. It is also put on the queue unless it is already there.
- At start-up the set `userset` is rebuilt from the existing output file, so a second run never writes a username again.
- `render.py` reads that file back (`load_users`) and renders one static HTML page with one card per account (`build_html`, `format_created_at`).

This project states that behaviour as pure Dafny functions and proves its properties:

- the dedup invariants: at most one write per username, a `userset` that only grows, and `hit` equal to the number of writes;
- which users are written and which are queued;
- the pagination loop's stop rule and its overshoot of at most one page;
- the key order and key set of the lookup dictionary;
- the structure of the rendered page.

Modules:

| file | module | models |
|---|---|---|
| `wrappers.dfy` | `Wrappers` | `Option` and `Result` |
| `text.dfy` | `Text` | Python truthiness, `str.strip`, `str.join`, `str(n)` for naturals |
| `dict.dfy` | `Dict` | an insertion-ordered dictionary as an association list (`d[k] = v` is `Put`) |
| `profile.dfy` | `Profile` | the profile JSON and the output-file record |
| `client.dfy` | `Client` | `get_followings` and `get_userinfo` over oracle endpoints |
| `crawler.dfy` | `Crawler` | `main()`: rehydration, one account's processing, the driver loop |
| `scenarios.dfy` | `CrawlScenarios` | one concrete iteration over a three-account graph |
| `render.dfy` | `Render` | `load_users`, `format_created_at`, `build_html` |

How the model treats the outside world:

- **Endpoints are oracles.**
  - The followings endpoint is a function from (screen name, `cursor` parameter) to a response. `RequestFailed` stands for the request or its JSON decoding raising.
  - The profile endpoint is a function from a screen name to `Found(info)`, `Malformed` (the key path is missing) or `LookupFailed`.
  - Each endpoint is a fixed function of its arguments, so a repeated request gets the same answer. In the source, a response cache gives this only for requests that succeeded (see "## Left out").
- **The crawl loop takes its per-account input as a function.** `Crawler.Env.batch` gives, for a popped account, the lookup dictionary that `main.py:85-92` computes. `Crawler.MainEnv` builds it from the two endpoints through `Crawler.Batch`.
  - The dedup and stop-rule lemmas therefore hold for every possible lookup result.
  - `Crawler.BatchLooksUpFollowings` states what the real batch contains.
- **JSON decoding and date parsing are oracles too.**
  - `json.loads` of a line is an oracle returning `None` on `JSONDecodeError`.
  - `strptime`/`strftime` is an oracle returning `None` when either raises.
- **Loops without a bound get a fuel parameter.**
  - The two `while` loops (`main.py:22`, `main.py:82`) have no bound in the source, so each has one here.
  - Running out of fuel is visible in the result (`OutOfFuel` for the crawl, for `get_followings` a trace as long as the fuel whose last page was "ok" and neither announced no more users nor reached `maxlen`). The crawl's per-account batch does not pass the trace on. No termination claim is made.
- **A crash is an error value.** The uncaught exception during rehydration of a bad output line is a `Failure`.
- **Markup is given once.** The page markup of `build_html` is the constant `Render.Markup`. `Render.BuildHtml` takes the markup as a parameter, so what is proved about the page holds for any markup. `Render.BuildPage` applies it to `Render.Markup` and to `build_html`'s default stylesheet name and title.

The crawl in `main.py`, and so the model:

- uses a plain FIFO queue (`deque`, `popleft`, `append`);
- fetches every page of an account's followings in one call, before it looks anyone up;
- does not put the popped account back to continue its pagination; the account returns to the queue only when a batch (possibly its own) lists it as a China-based following;
- has no sampling and no rate limiter.

`CrawlScenarios.FirstAccountWritesOnlyTarget` shows, for example, that after one iteration the popped account is not back on the queue.

## Model

| member | source | states |
|---|---|---|
| Client.CursorParam | main.py:23-25 | the `cursor` parameter is sent exactly when the cursor is truthy, and then unchanged |
| Client.Paginate | main.py:20-38 | the result is the starting list extended by the `following` arrays of the successful pages, in request order; at most `fuel` requests; the first request carries the starting cursor |
| Client.PaginateFollowsCursors | main.py:32-37 | every page but the last was "ok" and announced more users, and each later request carries the previous page's `next_cursor` |
| Client.PaginateEndsAtStop | main.py:29-36 | the loop ends early only at a page that raised, was not "ok", announced no more users, or brought the length to at least a positive `maxlen` |
| Client.PaginateOvershoot | main.py:34-36 | with a positive `maxlen`, the length before the last page was below `maxlen` |
| Client.GetFollowings | main.py:14-38 | starting from no cursor and an empty list, the result is exactly what the successful pages returned, and the first request has no cursor |
| Client.FollowingsOvershootAtMostOnePage | main.py:34-36 | the result is the earlier pages' entries, which stayed below `maxlen`, followed by the last page's entries: the bound is passed by at most one page |
| Client.GetUserInfo | main.py:41-65 | the keys are exactly the requested names whose lookup succeeded, once each, in first-request order, each mapped to the profile its own lookup returned |
| Client.FoundOnceSpec | main.py:47-65 | a name is a key iff it was requested and its lookup succeeded; a failed lookup adds nothing and removes nothing; keys are distinct and ordered by first request |
| Dict.Put | main.py:62 | `results[username] = info`: an existing key keeps its place, a new key goes last, the key maps to the new value and every other key keeps its value |
| Crawler.LoadVisited | main.py:69-77 | a missing file gives the empty set; otherwise the names are exactly the stored usernames, and the run aborts iff some line does not parse or lacks `username`, reporting the first such line |
| Crawler.Start | main.py:69-79 | the queue is the seeds in order, `userset` is the rehydrated set, nothing is written and `hit` is 0; start-up fails exactly when rehydration does |
| Crawler.ScreenNames | main.py:89-91 | only non-empty screen names of the followings are kept, and every non-empty one is kept |
| Crawler.ScreenNamesAppend | main.py:89-91 | the comprehension keeps order and repeats: the names of a concatenation are the first part's names followed by the second's |
| Crawler.ScreenNamesOne | main.py:89-91 | one following yields its screen name when non-empty and nothing otherwise |
| Crawler.ProcessUser | main.py:94-107 | a profile not based in China changes nothing; otherwise the user is written and counted iff not in `userset`, and queued iff not in the queue, the two tests independent |
| Crawler.ProcessBatch | main.py:94-107 | records, `userset` and the queue only grow, and `hit` grows by the number of records written |
| Crawler.BatchVisitsTargets | main.py:94-102 | `userset` grows by exactly the China-based users of the batch |
| Crawler.BatchWritesNewTargetsOnce | main.py:96-102 | every record written is a China-based entry of the batch not in `userset` beforehand, and no username is written twice |
| Crawler.BatchWritesAllNewTargets | main.py:96-102 | the usernames written are exactly the batch's China-based users minus `userset` |
| Crawler.BatchQueuesTargets | main.py:96-105 | the queue afterwards holds exactly its earlier entries plus the batch's China-based users, visited or not, and gains no duplicate |
| Crawler.BatchLooksUpFollowings | main.py:85-92 | every looked-up name is a non-empty screen name among the popped account's followings, looked up successfully, with its own profile, and no name occurs twice; conversely every non-empty screen name among the followings whose lookup succeeds is in the batch |
| Crawler.Step | main.py:83-107 | one iteration pops the head, keeps the rest of the queue in front, and only grows records and `userset`, with `hit` counting the writes |
| Crawler.BatchKeepsInv | main.py:94-107 | processing a lookup batch keeps the dedup invariant relative to the loaded usernames |
| Crawler.StepKeepsInv | main.py:83-107 | one iteration keeps the dedup invariant |
| Crawler.StepQueue | main.py:83-105 | after one iteration the queue is the old tail plus the batch's China-based users, without new duplicates |
| Crawler.Crawl | main.py:82-110 | the loop stops with an empty queue, right after an account that brought `hit` to a positive `max_hit`, or out of fuel; records and `userset` only grow |
| Crawler.CrawlKeepsInv | main.py:82-110 | the whole loop keeps the dedup invariant |
| Crawler.CrawlKeepsQueueDistinct | main.py:104-105 | the loop never creates a duplicate in a queue that has none |
| Crawler.CrawlChecksLimitAfterEachAccount | main.py:82-110 | the loop is the body iterated from non-empty queues, with the hit limit checked after every account and met at no earlier one |
| Crawler.Run | main.py:68-110 | a run fails exactly when rehydration fails |
| Crawler.RunWritesEachUserOnce | main.py:68-110 | over a whole run: every record is China-based and absent from the existing file, no username is written twice, `userset` ends as the loaded names plus the written ones, and `hit` equals the records written |
| CrawlScenarios.BatchOfA | main.py:85-92 | for an account following B, a nameless entry and C, the lookup batch is B then C, and the nameless entry is never looked up |
| CrawlScenarios.FirstAccountWritesOnlyTarget | main.py:83-107 | popping A writes B once, counts one hit and queues B; C is neither written nor queued, and A is not requeued |
| CrawlScenarios.KnownTargetIsQueuedNotWritten | main.py:97-105 | a China-based user already in `userset` is queued but not written again and not counted |
| Text.StripEmptyIffAllSpace | render.py:13-15 | `line.strip()` is empty exactly when the line is all whitespace |
| Text.JoinAppend | render.py:101 | joining a concatenation joins both parts with one separator between them |
| Text.DecimalRoundTrip | render.py:118 | the decimal digits of a count read back as that count |
| Render.LineUsers | render.py:13-21 | a line yields at most one object, parsed from its stripped text, and only when it is not blank |
| Render.LoadUsers | render.py:9-22 | at most one object per line, each parsed from some non-blank line of the file |
| Render.LoadUsersAppend | render.py:12-21 | reading two stretches of a file is reading each, in file order |
| Render.LoadUsersLine | render.py:13-21 | a single line yields an object iff it is not blank and its stripped text parses, and then the parsed object |
| Render.FormatCreatedAt | render.py:24-32 | falsy input gives "", an unparseable date is returned as it is, a date that parses is returned reformatted by `strptime`/`strftime`, and the result is empty only for falsy input or an empty reformatted date |
| Render.SelectView | render.py:38-55 | the handle falls back to `username` and the display name to the handle when missing or empty; the badge flag is `is_blue_verified` or `verification.verified`; the ID is the record's `rest_id`; the avatar URL is `image_url` or ""; the meta entries are exactly the record's non-empty reformatted date, region and source and its rename count other than None/"", in that order |
| Render.MetaItems | render.py:62-70 | the meta line holds exactly the non-empty date, region and source and a rename count other than None/"", in that fixed order, each at most once |
| Render.MetaHtml | render.py:72-74 | the meta block is absent exactly when there are no entries |
| Render.BadgeHtml | render.py:57-59 | the verified badge is present exactly for verified accounts |
| Render.IdHtml | render.py:76-78 | the ID line is present exactly when `rest_id` is non-empty |
| Render.Cards | render.py:37-99 | one card per user, in input order |
| Render.BuildHtml | render.py:101-129 | the page opens with the head holding title and stylesheet; the subtitle's digits right after it have no leading zero and read back as the number of users; the page closes with the users' cards, in input order and joined by newlines, inside the grid; its length leaves room for nothing else, so the grid markup follows the digits directly |
| Render.CardsSectionAppend | render.py:101 | rendering two lists back to back gives the first list's cards, a newline, then the second list's cards |
| Render.WrittenRecordShowsRegion | render.py:48-74 | a record the crawler wrote renders with its region in a non-empty meta line, and with its username as handle when the profile has no core |

## Left out

- Termination: `get_followings` loops `while True` and the crawl loops `while queue`. Each has a `fuel` bound here. A crawl can requeue accounts it has already processed (`main.py:104-105`), so no termination claim is made. Running out of fuel is reported as its own outcome.
- HTTP, headers, the API key, the SQLite response cache, asyncio and the logger are not modelled. The endpoints are deterministic oracles; the cache makes that hold only for successful requests (see `Crawler.MainEnv` below).
- JSON encoding of records (`json.dumps`) and writing and flushing the output file are left out. A written record is its `(username, info)` pair.
- Reading the file as lines is left out. Rehydration and `load_users` take the already-split lines.
- Exceptions the source does not catch are left out, apart from rehydration failures. Examples: a `TypeError` when a JSON value has an unexpected type or is `null` where a dict is indexed, and a `KeyError` for a following without a `screen_name` key.
- `datetime.strptime`/`strftime` are an oracle. The date format `"%a %b %d %H:%M:%S %z %Y"` is not modelled.
- `write_css`, the CSS text and `render.py`'s command-line `main` are not part of this model. Neither is `config.py` (its `seed_accounts`, `output_file`, `max_followings` and `max_hit` are parameters).
- Client.Paginate: the loop's behaviour past its fuel is not described. `PaginateEndsAtStop` speaks only of traces shorter than the fuel.
- Crawler.MainEnv: an account's batch is built from the pages fetched within `pageFuel`. A pagination that runs out of fuel is not reported to the crawl, which then works on the pages fetched so far.
- Crawler.MainEnv: a request that raises is not cached by the source, so a repeat (a name twice in one followings list, or an account popped again after `main.py:104-105` requeued it) can get a different answer there. Here the endpoints and `Env.batch` are fixed functions, so a repeat always gets the same answer. `Client.GetUserInfo`'s "first-request order" is, in the source, the order of the first successful lookup.
- Crawler.Crawl: as above, a run that exhausts its fuel ends as `OutOfFuel` rather than continuing.

=== FILE: client.dfy ===
/** The two request helpers of main.py with the HTTP session replaced by
    oracles: `get_followings` (main.py:14-38) and `get_userinfo`
    (main.py:41-65). Each oracle is a fixed function of the request
    parameters; the source's response cache gives this only for requests
    that succeeded, since a request that raises is not cached. */
module Client {
  import opened Wrappers
  import opened Text
  import opened Dict
  import opened Profile

  /** One entry of a `following` array; `screenName` is `user["screen_name"]`. */
  datatype Following = Following(screenName: Option<string>)

  /** What one followings request yields: either the request or its JSON
      decoding raised, or a decoded object with the keys the loop reads. */
  datatype PageResponse =
    | RequestFailed
    | Page(status: Option<string>, following: seq<Following>, moreUsers: bool,
           nextCursor: Option<string>)

  /** The followings endpoint, as a function of (screen name, `cursor`
      parameter), where `None` means the parameter is not sent. */
  type PageOracle = (string, Option<string>) -> PageResponse

  /** `if cursor: params["cursor"] = cursor`: a falsy cursor is not sent. */
  function CursorParam(cursor: Option<string>): (p: Option<string>)
    ensures p.Some? <==> Truthy(cursor)
    ensures p.Some? ==> p == cursor
  {
    if Truthy(cursor) then cursor else None
  }

  predicate IsOk(p: PageResponse) {
    p.Page? && p.status == Some("ok")
  }

  /** A page after which the loop requests another one, ignoring the length
      bound: it succeeded and announced more users. */
  predicate Announces(p: PageResponse) {
    IsOk(p) && p.moreUsers
  }

  /** The loop's exit test after a page: an exception, a status other than
      "ok", no more users, or (with a positive `maxlen`) an accumulated length
      `total` of at least `maxlen`. */
  predicate Stops(p: PageResponse, total: int, maxlen: int) {
    !Announces(p) || (maxlen > 0 && total >= maxlen)
  }

  /** Everything the successful pages of `t` contribute, in order. */
  function Gathered(t: seq<PageResponse>): seq<Following> {
    if t == [] then [] else (if IsOk(t[0]) then t[0].following else []) + Gathered(t[1..])
  }

  /** The outcome of the pagination loop: the accumulated followings and the
      responses received, in request order. */
  datatype Fetched = Fetched(followings: seq<Following>, trace: seq<PageResponse>)

  /** The `while True` loop of `get_followings` from a given cursor and
      accumulator, issuing at most `fuel` requests. The result is the
      accumulator extended by the successful pages of the trace, and the
      trace starts with the request for `cursor`. */
  function Paginate(fetch: PageOracle, user: string, maxlen: int, cursor: Option<string>,
                    acc: seq<Following>, fuel: nat): (r: Fetched)
    ensures r.followings == acc + Gathered(r.trace)
    ensures |r.trace| <= fuel
    ensures fuel > 0 ==> |r.trace| > 0 && r.trace[0] == fetch(user, CursorParam(cursor))
    decreases fuel
  {
    if fuel == 0 then Fetched(acc, [])
    else
      var p := fetch(user, CursorParam(cursor));
      if !IsOk(p) then Fetched(acc, [p])
      else
        var acc' := acc + p.following;
        if Stops(p, |acc'|, maxlen) then Fetched(acc', [p])
        else
          var rest := Paginate(fetch, user, maxlen, p.nextCursor, acc', fuel - 1);
          assert ([p] + rest.trace)[1..] == rest.trace;
          Fetched(rest.followings, [p] + rest.trace)
  }

  /** Every page of `t` but the last announced more users, and every request
      after the first carried the previous page's `next_cursor`. */
  ghost predicate FollowsCursors(fetch: PageOracle, user: string, t: seq<PageResponse>) {
    forall i :: 0 <= i < |t| - 1 ==>
      Announces(t[i]) && t[i + 1] == fetch(user, CursorParam(t[i].nextCursor))
  }

  /** The loop only asks for another page after a page that announced more
      users, and asks with that page's cursor. */
  lemma {:induction false} PaginateFollowsCursors(fetch: PageOracle, user: string, maxlen: int,
                                                 cursor: Option<string>, acc: seq<Following>, fuel: nat)
    ensures FollowsCursors(fetch, user, Paginate(fetch, user, maxlen, cursor, acc, fuel).trace)
    decreases fuel
  {
    if fuel > 0 {
      var p := fetch(user, CursorParam(cursor));
      if IsOk(p) && !Stops(p, |acc + p.following|, maxlen) {
        var acc' := acc + p.following;
        var rest := Paginate(fetch, user, maxlen, p.nextCursor, acc', fuel - 1);
        PaginateFollowsCursors(fetch, user, maxlen, p.nextCursor, acc', fuel - 1);
        var t := [p] + rest.trace;
        assert Paginate(fetch, user, maxlen, cursor, acc, fuel).trace == t;
        forall i | 0 <= i < |t| - 1
          ensures Announces(t[i]) && t[i + 1] == fetch(user, CursorParam(t[i].nextCursor))
        {
          if i > 0 {
            assert t[i] == rest.trace[i - 1] && t[i + 1] == rest.trace[i];
          }
        }
      }
    }
  }

  /** The loop ends before its fuel runs out only at a page that stops it,
      judged on the length accumulated with that page. */
  lemma {:induction false} PaginateEndsAtStop(fetch: PageOracle, user: string, maxlen: int,
                                             cursor: Option<string>, acc: seq<Following>, fuel: nat)
    ensures var r := Paginate(fetch, user, maxlen, cursor, acc, fuel);
            0 < |r.trace| < fuel ==> Stops(r.trace[|r.trace| - 1], |r.followings|, maxlen)
    decreases fuel
  {
    if fuel > 0 {
      var p := fetch(user, CursorParam(cursor));
      if IsOk(p) && !Stops(p, |acc + p.following|, maxlen) {
        var acc' := acc + p.following;
        var rest := Paginate(fetch, user, maxlen, p.nextCursor, acc', fuel - 1);
        PaginateEndsAtStop(fetch, user, maxlen, p.nextCursor, acc', fuel - 1);
        var t := [p] + rest.trace;
        assert Paginate(fetch, user, maxlen, cursor, acc, fuel) == Fetched(rest.followings, t);
        if 0 < |t| < fuel {
          assert t[|t| - 1] == rest.trace[|rest.trace| - 1];
        }
      }
    }
  }

  /** With a positive `maxlen` the loop overshoots by at most one page:
      before the last page the accumulated length was below `maxlen`. */
  lemma {:induction false} PaginateOvershoot(fetch: PageOracle, user: string, maxlen: int,
                                            cursor: Option<string>, acc: seq<Following>, fuel: nat)
    requires maxlen > 0 && |acc| < maxlen
    ensures var t := Paginate(fetch, user, maxlen, cursor, acc, fuel).trace;
            |t| > 0 ==> |acc| + |Gathered(t[..|t| - 1])| < maxlen
    decreases fuel
  {
    if fuel > 0 {
      var p := fetch(user, CursorParam(cursor));
      if IsOk(p) && !Stops(p, |acc + p.following|, maxlen) {
        var acc' := acc + p.following;
        var rest := Paginate(fetch, user, maxlen, p.nextCursor, acc', fuel - 1);
        PaginateOvershoot(fetch, user, maxlen, p.nextCursor, acc', fuel - 1);
        var t := [p] + rest.trace;
        assert Paginate(fetch, user, maxlen, cursor, acc, fuel).trace == t;
        if rest.trace != [] {
          var front := t[..|t| - 1];
          assert front == [p] + rest.trace[..|rest.trace| - 1];
          assert front[1..] == rest.trace[..|rest.trace| - 1];
          assert Gathered(front) == p.following + Gathered(rest.trace[..|rest.trace| - 1]);
        } else {
          assert t[..|t| - 1] == [];
        }
      } else {
        assert |Paginate(fetch, user, maxlen, cursor, acc, fuel).trace| == 1;
      }
    }
  }

  /** `get_followings(session, username, maxlen)`: pagination from no cursor
      and an empty list; the first request carries no cursor and the result
      is exactly what the successful pages returned. */
  function GetFollowings(fetch: PageOracle, user: string, maxlen: int, fuel: nat): (r: Fetched)
    ensures r.followings == Gathered(r.trace)
    ensures fuel > 0 ==> |r.trace| > 0 && r.trace[0] == fetch(user, None)
  {
    Paginate(fetch, user, maxlen, None, [], fuel)
  }

  /** The result may pass a positive `maxlen` by at most the last page: it is
      what the earlier pages gathered, which stayed below `maxlen`, followed by
      the last page's entries. */
  lemma FollowingsOvershootAtMostOnePage(fetch: PageOracle, user: string, maxlen: int, fuel: nat)
    requires maxlen > 0
    ensures var r := GetFollowings(fetch, user, maxlen, fuel);
            |r.trace| > 0 ==>
              r.followings == Gathered(r.trace[..|r.trace| - 1]) + Gathered([r.trace[|r.trace| - 1]])
              && |Gathered(r.trace[..|r.trace| - 1])| < maxlen
  {
    var r := GetFollowings(fetch, user, maxlen, fuel);
    var t := r.trace;
    PaginateOvershoot(fetch, user, maxlen, None, [], fuel);
    if |t| > 0 {
      var init := t[..|t| - 1];
      var last := [t[|t| - 1]];
      assert init + last == t;
      GatheredAppend(init, last);
      assert r.followings == Gathered(init) + Gathered(last);
    }
  }

  /** Gathering distributes over concatenation of traces. */
  lemma {:induction false} GatheredAppend(a: seq<PageResponse>, b: seq<PageResponse>)
    ensures Gathered(a + b) == Gathered(a) + Gathered(b)
  {
    if a != [] {
      assert (a + b)[1..] == a[1..] + b;
      GatheredAppend(a[1..], b);
    } else {
      assert a + b == b;
    }
  }

  /** What one profile lookup yields: the request or decoding raised, the
      JSON lacked the `result.data.user_result_by_screen_name.result` path,
      or the profile object found there. */
  datatype Lookup = LookupFailed | Malformed | Found(info: Info)

  type LookupOracle = string -> Lookup

  /** `get_userinfo(session, usernames)`: one lookup per name, in order,
      each failure isolated. The keys are exactly the requested names whose
      lookup succeeded, once each, in the order of their first request, and
      each maps to the profile its lookup returned. */
  function GetUserInfo(lookup: LookupOracle, names: seq<string>): (r: Dict<string, Info>)
    ensures Keys(r) == FoundOnce(lookup, names)
    ensures DistinctKeys(r)
    ensures forall i :: 0 <= i < |r| ==> lookup(r[i].0) == Found(r[i].1)
  {
    if names == [] then []
    else
      var d := GetUserInfo(lookup, names[..|names| - 1]);
      var u := names[|names| - 1];
      match lookup(u)
      case Found(info) =>
        if u in Keys(d) then UpdateKnownKey(lookup, d, u, info); Put(d, u, info)
        else AddNewKey(lookup, d, u, info); Put(d, u, info)
      case _ => d
  }

  /** The reference for the keys of `GetUserInfo`: the requested names whose
      lookup succeeds, each once, in the order of their first request. */
  function FoundOnce(lookup: LookupOracle, names: seq<string>): seq<string> {
    if names == [] then []
    else
      var f := FoundOnce(lookup, names[..|names| - 1]);
      var u := names[|names| - 1];
      if lookup(u).Found? && u !in f then f + [u] else f
  }

  /** A failed lookup leaves no key and does not disturb the others: a name
      is a key exactly when it was requested and its own lookup succeeded;
      keys are distinct and ordered by first request. */
  lemma {:induction false} FoundOnceSpec(lookup: LookupOracle, names: seq<string>)
    ensures forall u :: u in FoundOnce(lookup, names) <==> u in names && lookup(u).Found?
    ensures forall i, j :: 0 <= i < j < |FoundOnce(lookup, names)| ==>
              FoundOnce(lookup, names)[i] != FoundOnce(lookup, names)[j]
    ensures forall i, j :: 0 <= i < j < |FoundOnce(lookup, names)| ==>
              FirstIndex(names, FoundOnce(lookup, names)[i]) < FirstIndex(names, FoundOnce(lookup, names)[j])
  {
    if names != [] {
      var front := names[..|names| - 1];
      var u := names[|names| - 1];
      var f := FoundOnce(lookup, front);
      FoundOnceSpec(lookup, front);
      assert names == front + [u];
      FirstIndexOfPrefix(names, front);
      var f' := FoundOnce(lookup, names);
      forall i, j | 0 <= i < j < |f'|
        ensures FirstIndex(names, f'[i]) < FirstIndex(names, f'[j])
      {
        assert f'[i] == f[i] && f'[i] in front;
        if j < |f| {
          assert f'[j] == f[j] && f'[j] in front;
          assert FirstIndex(front, f[i]) < FirstIndex(front, f[j]);
        } else {
          assert f'[j] == u && u !in front;
          assert FirstIndex(front, f[i]) < |front|;
        }
      }
    }
  }

  /** Assigning to a key already present changes only that key's value. */
  lemma UpdateKnownKey(lookup: LookupOracle, d: Dict<string, Info>, u: string, v: Info)
    requires u in Keys(d) && lookup(u) == Found(v)
    requires DistinctKeys(d)
    requires forall i :: 0 <= i < |d| ==> lookup(d[i].0) == Found(d[i].1)
    ensures Keys(Put(d, u, v)) == Keys(d)
    ensures var d' := Put(d, u, v);
            forall i :: 0 <= i < |d'| ==> lookup(d'[i].0) == Found(d'[i].1)
  {
    var d' := Put(d, u, v);
    forall i | 0 <= i < |d'|
      ensures lookup(d'[i].0) == Found(d'[i].1)
    {
      assert Keys(d')[i] == Keys(d)[i];
      assert Get(d', d'[i].0) == Some(d'[i].1);
      if d'[i].0 != u {
        assert Get(d, d[i].0) == Some(d[i].1);
      }
    }
  }

  /** Assigning to a new key appends it with its value. */
  lemma AddNewKey(lookup: LookupOracle, d: Dict<string, Info>, u: string, v: Info)
    requires u !in Keys(d) && lookup(u) == Found(v)
    requires forall i :: 0 <= i < |d| ==> lookup(d[i].0) == Found(d[i].1)
    ensures var d' := Put(d, u, v);
            forall i :: 0 <= i < |d'| ==> lookup(d'[i].0) == Found(d'[i].1)
  {
    var d' := Put(d, u, v);
    assert d' == d + [(u, v)];
    forall i | 0 <= i < |d'|
      ensures lookup(d'[i].0) == Found(d'[i].1)
    {
      if i < |d| {
        assert d'[i] == d[i];
      }
    }
  }

  /** Position of the first occurrence of `x` in `s`, or `|s|` when absent. */
  function FirstIndex(s: seq<string>, x: string): (i: nat)
    ensures i <= |s| && x !in s[..i]
    ensures i < |s| <==> x in s
    ensures i < |s| ==> s[i] == x
  {
    if s == [] then 0 else if s[0] == x then 0 else 1 + FirstIndex(s[1..], x)
  }

  /** Extending a sequence does not move the first occurrence of an element
      already present. */
  lemma FirstIndexOfPrefix(s: seq<string>, front: seq<string>)
    requires front <= s
    ensures forall x :: x in front ==> FirstIndex(s, x) == FirstIndex(front, x)
    ensures forall x :: x !in front ==> FirstIndex(s, x) >= |front|
  {
    forall x | x in front
      ensures FirstIndex(s, x) == FirstIndex(front, x)
    {
      assert s[FirstIndex(front, x)] == x;
    }
    forall x | x !in front
      ensures FirstIndex(s, x) >= |front|
    {
      assert s[..|front|] == front;
    }
  }
}

=== FILE: crawler.dfy ===
/** The crawl of main.py:68-113: a breadth-first walk over a FIFO queue of
    screen names. Each popped account's followings are fetched, their
    non-empty screen names looked up, and every looked-up account based in the
    target region is written to the output file once, counted as a hit and
    appended to the queue unless already queued. */
module Crawler {
  import opened Wrappers
  import opened Text
  import opened Dict
  import opened Profile
  import opened Client

  /** What the loop body learns about one popped account: the lookup
      results for its followings (main.py:84-92), in dictionary order. */
  type BatchOracle = string -> Dict<string, Info>

  /** The run: the lookups per popped account and `max_hit` from the
      configuration module. */
  datatype Env = Env(batch: BatchOracle, maxHit: int)

  /** The run of main.py, whose batch for an account is `Batch` over the two
      endpoints. `pageFuel` bounds the requests of one pagination loop and
      has no counterpart in the source. */
  function MainEnv(fetch: PageOracle, lookup: LookupOracle, maxFollowings: int, maxHit: int,
                   pageFuel: nat): Env {
    Env(account => Batch(fetch, lookup, maxFollowings, pageFuel, account), maxHit)
  }

  /** The crawl's mutable state: the FIFO `queue`, the `userset` of accounts
      already in the output file, the records appended during this run, and
      the `hit` counter. */
  datatype State = State(queue: seq<string>, visited: set<string>, written: seq<Record>, hit: nat)

  // ----- Rehydration of `userset` from the existing output file (main.py:70-77)

  /** One existing output line as `json.loads(line)["username"]` sees it. */
  datatype StoredLine = Unparsable | MissingUsername | Stored(username: string)

  /** The usernames of the existing output file. A missing file gives the
      empty set; the first line that does not parse or lacks `username` aborts
      the program, which the `Failure` carrying that line stands for. */
  function LoadVisited(file: Option<seq<StoredLine>>): (r: Result<set<string>, StoredLine>)
    ensures file.None? ==> r == Success({})
    ensures file.Some? && r.Success? ==>
              forall u :: u in r.value <==> Stored(u) in file.value
    ensures file.Some? ==> (r.Failure? <==> exists i :: 0 <= i < |file.value| && !file.value[i].Stored?)
    ensures r.Failure? ==> FirstBad(file.value, r.error)
  {
    match file
    case None => Success({})
    case Some(lines) => LoadLines(lines)
  }

  /** `bad` is the first line of `lines` that is not a stored record. */
  ghost predicate FirstBad(lines: seq<StoredLine>, bad: StoredLine) {
    exists i :: 0 <= i < |lines| && lines[i] == bad && !bad.Stored?
                && forall k :: 0 <= k < i ==> lines[k].Stored?
  }

  function LoadLines(lines: seq<StoredLine>): (r: Result<set<string>, StoredLine>)
    ensures r.Success? ==> forall u :: u in r.value <==> Stored(u) in lines
    ensures r.Failure? <==> exists i :: 0 <= i < |lines| && !lines[i].Stored?
    ensures r.Failure? ==> FirstBad(lines, r.error)
  {
    if lines == [] then Success({})
    else
      var front := lines[..|lines| - 1];
      var last := lines[|lines| - 1];
      assert lines == front + [last];
      match LoadLines(front)
      case Failure(e) =>
        assert forall k :: 0 <= k < |front| ==> lines[k] == front[k];
        Failure(e)
      case Success(names) =>
        if last.Stored? then Success(names + {last.username})
        else Failure(last)
  }

  /** The state before the first account is popped: the seeds in order,
      the rehydrated `userset`, nothing written and no hit. */
  function Start(seeds: seq<string>, file: Option<seq<StoredLine>>): (r: Result<State, StoredLine>)
    ensures r.Success? <==> LoadVisited(file).Success?
    ensures r.Success? ==> r.value.queue == seeds && r.value.visited == LoadVisited(file).value
                           && r.value.written == [] && r.value.hit == 0
  {
    match LoadVisited(file)
    case Failure(e) => Failure(e)
    case Success(visited) => Success(State(seeds, visited, [], 0))
  }

  // ----- One account (main.py:83-107)

  /** `[user["screen_name"] for user in followings if user["screen_name"]]`:
      the non-empty screen names, in order. */
  function ScreenNames(followings: seq<Following>): (r: seq<string>)
    ensures |r| <= |followings|
    ensures forall k :: 0 <= k < |r| ==> r[k] != "" && Following(Some(r[k])) in followings
    ensures forall f :: f in followings && Truthy(f.screenName) ==> f.screenName.value in r
  {
    if followings == [] then []
    else
      var rest := ScreenNames(followings[1..]);
      var f := followings[0];
      assert forall g :: g in followings[1..] ==> g in followings;
      if Truthy(f.screenName) then [f.screenName.value] + rest else rest
  }

  /** The filter keeps the followings' order and repeats: the names of a
      concatenation are the names of each part, in turn. */
  lemma {:induction false} ScreenNamesAppend(a: seq<Following>, b: seq<Following>)
    ensures ScreenNames(a + b) == ScreenNames(a) + ScreenNames(b)
  {
    if a != [] {
      assert (a + b)[1..] == a[1..] + b;
      ScreenNamesAppend(a[1..], b);
    } else {
      assert a + b == b;
    }
  }

  /** One following contributes its screen name exactly when that name is
      non-empty. */
  lemma ScreenNamesOne(f: Following)
    ensures ScreenNames([f]) == if Truthy(f.screenName) then [f.screenName.value] else []
  {
    assert [f][1..] == [];
  }

  /** Usernames of written records. */
  function Names(written: seq<Record>): set<string> {
    set i | 0 <= i < |written| :: written[i].username
  }

  predicate NoDuplicates(q: seq<string>) {
    forall i, j :: 0 <= i < j < |q| ==> q[i] != q[j]
  }

  /** The body of `for user, info in about_info.items()`. A profile not based
      in the target region (or lacking the keys) leaves the state unchanged.
      Otherwise the user is written and counted only when not yet in
      `userset`, and queued only when not yet in the queue; the two checks are
      independent. */
  function ProcessUser(s: State, user: string, info: Info): (r: State)
    ensures !BasedInTarget(info) ==> r == s
    ensures s.written <= r.written && |r.written| <= |s.written| + 1
    ensures r.hit - s.hit == |r.written| - |s.written|
    ensures |r.written| == |s.written| + 1 <==> BasedInTarget(info) && user !in s.visited
    ensures |r.written| == |s.written| + 1 ==> r.written[|s.written|] == Record(user, info)
    ensures r.visited == s.visited + Names(r.written[|s.written|..])
    ensures s.queue <= r.queue
    ensures |r.queue| == |s.queue| + 1 <==> BasedInTarget(info) && user !in s.queue
    ensures |r.queue| <= |s.queue| + 1
    ensures |r.queue| == |s.queue| + 1 ==> r.queue[|s.queue|] == user
    ensures NoDuplicates(s.queue) ==> NoDuplicates(r.queue)
  {
    if !BasedInTarget(info) then
      assert s.written[|s.written|..] == [];
      s
    else
      var s1 :=
        if user !in s.visited then
          s.(written := s.written + [Record(user, info)], visited := s.visited + {user}, hit := s.hit + 1)
        else s;
      assert s1.written[|s.written|..] == if user !in s.visited then [Record(user, info)] else [];
      if user !in s1.queue then s1.(queue := s1.queue + [user]) else s1
  }

  /** The loop over the lookup results, in their dictionary order. Records,
      `userset` and the queue only grow, and `hit` grows with the records. */
  function ProcessBatch(s: State, batch: Dict<string, Info>): (r: State)
    ensures s.written <= r.written && s.visited <= r.visited && s.queue <= r.queue
    ensures r.hit - s.hit == |r.written| - |s.written|
    decreases |batch|
  {
    if batch == [] then s
    else ProcessBatch(ProcessUser(s, batch[0].0, batch[0].1), batch[1..])
  }

  /** The users of a lookup batch whose profile is based in the target region. */
  function Matching(batch: Dict<string, Info>): set<string> {
    set i | 0 <= i < |batch| && BasedInTarget(batch[i].1) :: batch[i].0
  }

  lemma MatchingCons(batch: Dict<string, Info>)
    requires batch != []
    ensures Matching(batch) == Matching(batch[1..]) + (if BasedInTarget(batch[0].1) then {batch[0].0} else {})
  {
    var tail := batch[1..];
    forall x | x in Matching(batch)
      ensures x in Matching(tail) || (BasedInTarget(batch[0].1) && x == batch[0].0)
    {
      var i :| 0 <= i < |batch| && BasedInTarget(batch[i].1) && batch[i].0 == x;
      if i > 0 {
        assert tail[i - 1] == batch[i];
      }
    }
    forall x | x in Matching(tail)
      ensures x in Matching(batch)
    {
      var i :| 0 <= i < |tail| && BasedInTarget(tail[i].1) && tail[i].0 == x;
      assert batch[i + 1] == tail[i];
    }
  }

  lemma NamesAppend(w: seq<Record>, v: seq<Record>)
    ensures Names(w + v) == Names(w) + Names(v)
  {
    var wv := w + v;
    forall x | x in Names(wv)
      ensures x in Names(w) + Names(v)
    {
      var i :| 0 <= i < |wv| && wv[i].username == x;
      if i >= |w| {
        assert v[i - |w|] == wv[i];
      }
    }
    forall x | x in Names(v)
      ensures x in Names(wv)
    {
      var i :| 0 <= i < |v| && v[i].username == x;
      assert wv[|w| + i] == v[i];
    }
    forall x | x in Names(w)
      ensures x in Names(wv)
    {
      var i :| 0 <= i < |w| && w[i].username == x;
      assert wv[i] == w[i];
    }
  }

  /** `userset` grows by exactly the batch's target-region users. */
  lemma {:induction false} BatchVisitsTargets(s: State, batch: Dict<string, Info>)
    ensures ProcessBatch(s, batch).visited == s.visited + Matching(batch)
    decreases |batch|
  {
    if batch != [] {
      var s1 := ProcessUser(s, batch[0].0, batch[0].1);
      BatchVisitsTargets(s1, batch[1..]);
      MatchingCons(batch);
      if BasedInTarget(batch[0].1) {
        assert s1.visited == s.visited + {batch[0].0} by {
          if batch[0].0 !in s.visited {
            assert s1.written[|s.written|..] == [Record(batch[0].0, batch[0].1)];
          }
        }
      }
    }
  }

  /** Every record appended between `s` and `r` is an entry of `batch`,
      based in the target region, for a user not in `userset` at `s`, and no
      username is appended twice. */
  ghost predicate WritesNewTargetsOnce(s: State, r: State, batch: Dict<string, Info>) {
    && (forall k :: |s.written| <= k < |r.written| ==>
          && (r.written[k].username, r.written[k].info) in batch
          && BasedInTarget(r.written[k].info)
          && r.written[k].username !in s.visited)
    && (forall i, j :: |s.written| <= i < j < |r.written| ==>
          r.written[i].username != r.written[j].username)
  }

  /** A batch writes only new target-region users of the batch, each once. */
  lemma {:induction false} BatchWritesNewTargetsOnce(s: State, batch: Dict<string, Info>)
    ensures WritesNewTargetsOnce(s, ProcessBatch(s, batch), batch)
    decreases |batch|
  {
    if batch != [] {
      var s1 := ProcessUser(s, batch[0].0, batch[0].1);
      var tail := batch[1..];
      var r := ProcessBatch(s1, tail);
      assert r == ProcessBatch(s, batch);
      BatchWritesNewTargetsOnce(s1, tail);
      assert WritesNewTargetsOnce(s1, r, tail);
      assert forall p :: p in tail ==> p in batch;
      assert batch[0] in batch;
      var isNew := |s1.written| > |s.written|;
      assert s1.visited == s.visited + (if isNew then {batch[0].0} else {}) by {
        if isNew {
          assert s1.written[|s.written|..] == [Record(batch[0].0, batch[0].1)];
        } else {
          assert s1.written[|s.written|..] == [];
        }
      }
      assert s1.written == r.written[..|s1.written|];
      forall k | |s.written| <= k < |r.written|
        ensures (r.written[k].username, r.written[k].info) in batch
        ensures BasedInTarget(r.written[k].info)
        ensures r.written[k].username !in s.visited
      {
        if k < |s1.written| {
          assert r.written[k] == s1.written[k] == Record(batch[0].0, batch[0].1);
        }
      }
      forall i, j | |s.written| <= i < j < |r.written|
        ensures r.written[i].username != r.written[j].username
      {
        if i < |s1.written| {
          assert r.written[i] == s1.written[i] == Record(batch[0].0, batch[0].1);
          assert r.written[j].username !in s1.visited;
        }
      }
    }
  }

  /** The names a batch writes are exactly its target-region users that were
      not in `userset`. */
  lemma {:induction false} BatchWritesAllNewTargets(s: State, batch: Dict<string, Info>)
    ensures var r := ProcessBatch(s, batch);
            Names(r.written[|s.written|..]) == Matching(batch) - s.visited
    decreases |batch|
  {
    var r := ProcessBatch(s, batch);
    if batch == [] {
      assert r.written[|s.written|..] == [];
    } else {
      var u := batch[0].0;
      var s1 := ProcessUser(s, u, batch[0].1);
      var tail := batch[1..];
      BatchWritesAllNewTargets(s1, tail);
      MatchingCons(batch);
      var mid := s1.written[|s.written|..];
      var late := r.written[|s1.written|..];
      assert r.written[|s.written|..] == mid + late;
      NamesAppend(mid, late);
      UserWritesName(s, u, batch[0].1);
      NewTargetsStep(Matching(batch), Matching(tail), s.visited, Names(mid), u, BasedInTarget(batch[0].1));
    }
  }

  /** The name one user adds to the output: its own, exactly when it is a
      new target-region user. */
  lemma UserWritesName(s: State, u: string, info: Info)
    ensures var s1 := ProcessUser(s, u, info);
            && Names(s1.written[|s.written|..]) == (if BasedInTarget(info) && u !in s.visited then {u} else {})
            && s1.visited == s.visited + Names(s1.written[|s.written|..])
  {
    var s1 := ProcessUser(s, u, info);
    if BasedInTarget(info) && u !in s.visited {
      assert s1.written[|s.written|..] == [Record(u, info)];
    } else {
      assert s1.written[|s.written|..] == [];
    }
  }

  /** The set arithmetic of one step of `BatchWritesAllNewTargets`. */
  lemma NewTargetsStep(all: set<string>, rest: set<string>, visited: set<string>, first: set<string>,
                       u: string, target: bool)
    requires all == rest + (if target then {u} else {})
    requires first == (if target && u !in visited then {u} else {})
    ensures first + (rest - (visited + first)) == all - visited
  {
  }

  /** What a batch queues: afterwards the queue holds exactly its earlier
      entries and the batch's target-region users, whether or not they were
      already in `userset`, and a queue without duplicates keeps none. */
  lemma {:induction false} BatchQueuesTargets(s: State, batch: Dict<string, Info>)
    ensures var r := ProcessBatch(s, batch);
            forall x :: x in r.queue <==> x in s.queue || x in Matching(batch)
    ensures NoDuplicates(s.queue) ==> NoDuplicates(ProcessBatch(s, batch).queue)
    decreases |batch|
  {
    if batch != [] {
      var s1 := ProcessUser(s, batch[0].0, batch[0].1);
      BatchQueuesTargets(s1, batch[1..]);
      MatchingCons(batch);
      assert forall x :: x in s1.queue <==> x in s.queue || (BasedInTarget(batch[0].1) && x == batch[0].0);
    }
  }

  /** The lookup results for one popped account: its followings' non-empty
      screen names, looked up one by one. */
  function Batch(fetch: PageOracle, lookup: LookupOracle, maxFollowings: int, pageFuel: nat,
                 account: string): Dict<string, Info> {
    var followings := GetFollowings(fetch, account, maxFollowings, pageFuel).followings;
    GetUserInfo(lookup, ScreenNames(followings))
  }

  /** Every entry of a batch is a non-empty screen name among the popped
      account's followings, looked up successfully, with the profile that
      lookup returned; no name occurs twice. */
  lemma BatchLooksUpFollowings(fetch: PageOracle, lookup: LookupOracle, maxFollowings: int,
                               pageFuel: nat, account: string)
    ensures var followings := GetFollowings(fetch, account, maxFollowings, pageFuel).followings;
            var b := Batch(fetch, lookup, maxFollowings, pageFuel, account);
            && DistinctKeys(b)
            && forall i :: 0 <= i < |b| ==>
                 && b[i].0 != "" && Following(Some(b[i].0)) in followings
                 && lookup(b[i].0) == Found(b[i].1)
    ensures var followings := GetFollowings(fetch, account, maxFollowings, pageFuel).followings;
            var b := Batch(fetch, lookup, maxFollowings, pageFuel, account);
            forall f :: (f in followings && Truthy(f.screenName) && lookup(f.screenName.value).Found?)
                          ==> f.screenName.value in Keys(b)
  {
    var followings := GetFollowings(fetch, account, maxFollowings, pageFuel).followings;
    var names := ScreenNames(followings);
    var b := GetUserInfo(lookup, names);
    FoundOnceSpec(lookup, names);
    forall i | 0 <= i < |b|
      ensures b[i].0 != "" && Following(Some(b[i].0)) in followings
    {
      assert Keys(b)[i] == b[i].0;
      assert b[i].0 in FoundOnce(lookup, names);
      var k :| 0 <= k < |names| && names[k] == b[i].0;
    }
  }

  /** One iteration of `while queue`: pop the head, fetch its followings,
      look up their screen names and process the results. */
  function Step(env: Env, s: State): (r: State)
    requires s.queue != []
    ensures s.written <= r.written && s.visited <= r.visited && s.queue[1..] <= r.queue
    ensures r.hit - s.hit == |r.written| - |s.written|
  {
    ProcessBatch(s.(queue := s.queue[1..]), env.batch(s.queue[0]))
  }

  // ----- The crawl invariant

  /** The dedup invariant relative to the usernames `loaded` from the
      existing file: `userset` is the loaded names plus the names written in
      this run, every written record is a target-region account not loaded,
      no username is written twice, and `hit` counts the records written. */
  ghost predicate Inv(s: State, loaded: set<string>) {
    && s.visited == loaded + Names(s.written)
    && (forall k :: 0 <= k < |s.written| ==>
          s.written[k].username !in loaded && BasedInTarget(s.written[k].info))
    && (forall i, j :: 0 <= i < j < |s.written| ==> s.written[i].username != s.written[j].username)
    && s.hit == |s.written|
  }

  /** Processing a batch keeps the invariant. */
  lemma BatchKeepsInv(s: State, loaded: set<string>, batch: Dict<string, Info>)
    requires Inv(s, loaded)
    ensures Inv(ProcessBatch(s, batch), loaded)
  {
    var r := ProcessBatch(s, batch);
    var before := s.written;
    var added := r.written[|s.written|..];
    BatchWritesNewTargetsOnce(s, batch);
    BatchWritesAllNewTargets(s, batch);
    BatchVisitsTargets(s, batch);
    assert r.written == before + added;
    NamesAppend(before, added);
    forall k | 0 <= k < |before|
      ensures before[k].username in s.visited
    {
      assert before[k].username in Names(before);
    }
  }

  /** One iteration keeps the invariant. */
  lemma StepKeepsInv(env: Env, s: State, loaded: set<string>)
    requires s.queue != [] && Inv(s, loaded)
    ensures Inv(Step(env, s), loaded)
  {
    BatchKeepsInv(s.(queue := s.queue[1..]), loaded, env.batch(s.queue[0]));
  }

  /** One iteration pops the head and appends, without creating duplicates,
      exactly the target-region accounts of its batch not already queued. */
  lemma StepQueue(env: Env, s: State)
    requires s.queue != []
    ensures var r := Step(env, s);
            forall x :: x in r.queue <==> x in s.queue[1..] || x in Matching(env.batch(s.queue[0]))
    ensures NoDuplicates(s.queue) ==> NoDuplicates(Step(env, s).queue)
  {
    BatchQueuesTargets(s.(queue := s.queue[1..]), env.batch(s.queue[0]));
  }

  // ----- The driver loop (main.py:82-110)

  /** `max_hit > 0 and hit >= max_hit`. */
  predicate LimitReached(maxHit: int, hit: nat) {
    maxHit > 0 && hit >= maxHit
  }

  datatype StopReason = QueueEmpty | HitLimit | OutOfFuel

  /** Where the loop ended, why, and how many accounts it processed. */
  datatype Outcome = Outcome(state: State, reason: StopReason, steps: nat)

  /** `k` iterations of the loop body, ignoring the stop rule (an empty queue
      is a fixed point). */
  function Iterate(env: Env, s: State, k: nat): State
    decreases k
  {
    if k == 0 || s.queue == [] then s else Iterate(env, Step(env, s), k - 1)
  }

  /** The `while queue` loop with its hit limit, running at most `fuel`
      iterations. It stops with an empty queue, or right after the account
      that brought `hit` to a positive `max_hit`; records and `userset` only
      grow and `hit` grows with the records. */
  function Crawl(env: Env, s: State, fuel: nat): (r: Outcome)
    ensures r.steps <= fuel
    ensures r.reason == QueueEmpty ==> r.state.queue == []
    ensures r.reason == HitLimit ==> r.steps > 0 && LimitReached(env.maxHit, r.state.hit)
    ensures r.reason == OutOfFuel ==> r.steps == fuel && r.state.queue != []
    ensures s.written <= r.state.written && s.visited <= r.state.visited
    ensures r.state.hit - s.hit == |r.state.written| - |s.written|
    decreases fuel
  {
    if s.queue == [] then Outcome(s, QueueEmpty, 0)
    else if fuel == 0 then Outcome(s, OutOfFuel, 0)
    else
      var s' := Step(env, s);
      if LimitReached(env.maxHit, s'.hit) then Outcome(s', HitLimit, 1)
      else
        var r := Crawl(env, s', fuel - 1);
        Outcome(r.state, r.reason, r.steps + 1)
  }

  /** The loop keeps the dedup invariant. */
  lemma {:induction false} CrawlKeepsInv(env: Env, s: State, loaded: set<string>, fuel: nat)
    requires Inv(s, loaded)
    ensures Inv(Crawl(env, s, fuel).state, loaded)
    decreases fuel
  {
    if s.queue != [] && fuel > 0 {
      var s' := Step(env, s);
      StepKeepsInv(env, s, loaded);
      if !LimitReached(env.maxHit, s'.hit) {
        assert Crawl(env, s, fuel).state == Crawl(env, s', fuel - 1).state;
        CrawlKeepsInv(env, s', loaded, fuel - 1);
      } else {
        assert Crawl(env, s, fuel).state == s';
      }
    }
  }

  /** The loop never puts a duplicate into a queue that has none. */
  lemma {:induction false} CrawlKeepsQueueDistinct(env: Env, s: State, fuel: nat)
    requires NoDuplicates(s.queue)
    ensures NoDuplicates(Crawl(env, s, fuel).state.queue)
    decreases fuel
  {
    if s.queue != [] && fuel > 0 {
      StepQueue(env, s);
      var s' := Step(env, s);
      if !LimitReached(env.maxHit, s'.hit) {
        CrawlKeepsQueueDistinct(env, s', fuel - 1);
      }
    }
  }

  /** `r` is what `steps` iterations of the loop body give, every iteration
      started from a non-empty queue, and no state before the last had
      reached the hit limit. */
  ghost predicate FollowsLoop(env: Env, s: State, r: Outcome) {
    && r.state == Iterate(env, s, r.steps)
    && (forall k :: 0 <= k < r.steps ==> Iterate(env, s, k).queue != [])
    && (forall k :: 0 < k < r.steps ==> !LimitReached(env.maxHit, Iterate(env, s, k).hit))
  }

  /** The loop is the loop body iterated, with the hit limit tested after
      every account and only there. */
  lemma {:induction false} CrawlChecksLimitAfterEachAccount(env: Env, s: State, fuel: nat)
    ensures FollowsLoop(env, s, Crawl(env, s, fuel))
    decreases fuel
  {
    var r := Crawl(env, s, fuel);
    if s.queue != [] && fuel > 0 {
      var s' := Step(env, s);
      IterateShift(env, s, 1);
      if !LimitReached(env.maxHit, s'.hit) {
        var r' := Crawl(env, s', fuel - 1);
        assert r == Outcome(r'.state, r'.reason, r'.steps + 1);
        CrawlChecksLimitAfterEachAccount(env, s', fuel - 1);
        FollowsLoopPrepend(env, s, r');
      } else {
        assert r == Outcome(s', HitLimit, 1);
      }
    }
  }

  /** One more iteration in front of a run that follows the loop, from a
      state with a non-empty queue whose successor is below the limit. */
  lemma FollowsLoopPrepend(env: Env, s: State, r': Outcome)
    requires s.queue != [] && !LimitReached(env.maxHit, Step(env, s).hit)
    requires FollowsLoop(env, Step(env, s), r')
    ensures FollowsLoop(env, s, Outcome(r'.state, r'.reason, r'.steps + 1))
  {
    var n := r'.steps + 1;
    IterateShift(env, s, 1);
    IterateShift(env, s, n);
    forall k | 0 < k < n
      ensures Iterate(env, s, k).queue != []
      ensures !LimitReached(env.maxHit, Iterate(env, s, k).hit)
    {
      IterateShift(env, s, k);
    }
  }

  lemma IterateShift(env: Env, s: State, k: nat)
    requires s.queue != [] && 0 < k
    ensures Iterate(env, s, k) == Iterate(env, Step(env, s), k - 1)
  {
  }

  // ----- The whole run

  /** Rehydrate `userset`, then crawl from the seeds. */
  function Run(env: Env, seeds: seq<string>, file: Option<seq<StoredLine>>, fuel: nat): (r: Result<Outcome, StoredLine>)
    ensures r.Success? <==> LoadVisited(file).Success?
  {
    match Start(seeds, file)
    case Failure(e) => Failure(e)
    case Success(s) => Success(Crawl(env, s, fuel))
  }

  /** Across a whole run, each username reaches the output file at most once:
      the records written are target-region accounts, none of them already in
      the existing file, no two with the same username; `userset` ends as the
      loaded names plus the written ones, and `hit` counts the records written
      in this run only. */
  lemma RunWritesEachUserOnce(env: Env, seeds: seq<string>, lines: seq<StoredLine>, fuel: nat)
    requires Run(env, seeds, Some(lines), fuel).Success?
    ensures var st := Run(env, seeds, Some(lines), fuel).value.state;
            && (forall k :: 0 <= k < |st.written| ==>
                  Stored(st.written[k].username) !in lines && BasedInTarget(st.written[k].info))
            && (forall i, j :: 0 <= i < j < |st.written| ==> st.written[i].username != st.written[j].username)
            && (forall u :: u in st.visited <==> Stored(u) in lines || u in Names(st.written))
            && st.hit == |st.written|
  {
    var s := Start(seeds, Some(lines)).value;
    var loaded := s.visited;
    assert Names(s.written) == {};
    CrawlKeepsInv(env, s, loaded, fuel);
  }
}

=== FILE: dict.dfy ===
/** Python dictionaries keep their keys in first-insertion order, and the
    crawler walks the lookup results in that order, so a dictionary is
    modelled as an association list with distinct keys. */
module Dict {
  import opened Wrappers

  type Dict<K, V> = seq<(K, V)>

  /** The keys, in insertion order. */
  function Keys<K, V>(d: Dict<K, V>): (ks: seq<K>)
    ensures |ks| == |d|
    ensures forall i :: 0 <= i < |d| ==> ks[i] == d[i].0
  {
    if d == [] then [] else Keys(d[..|d| - 1]) + [d[|d| - 1].0]
  }

  predicate DistinctKeys<K(==), V>(d: Dict<K, V>) {
    forall i, j :: 0 <= i < j < |d| ==> d[i].0 != d[j].0
  }

  /** `d.get(k)`. */
  function Get<K(==), V>(d: Dict<K, V>, k: K): (r: Option<V>)
    ensures r.None? <==> k !in Keys(d)
    ensures r.Some? ==> (k, r.value) in d
    ensures DistinctKeys(d) ==> forall i :: 0 <= i < |d| && d[i].0 == k ==> r == Some(d[i].1)
  {
    if d == [] then None
    else if d[|d| - 1].0 == k then Some(d[|d| - 1].1)
    else Get(d[..|d| - 1], k)
  }

  /** `d[k] = v`: an existing key keeps its position and takes the new
      value, a new key goes to the end; no other entry changes. */
  function Put<K(==, !new), V>(d: Dict<K, V>, k: K, v: V): (r: Dict<K, V>)
    ensures k in Keys(d) ==> Keys(r) == Keys(d)
    ensures k !in Keys(d) ==> Keys(r) == Keys(d) + [k]
    ensures Get(r, k) == Some(v)
    ensures forall k' :: k' != k ==> Get(r, k') == Get(d, k')
    ensures DistinctKeys(d) ==> DistinctKeys(r)
  {
    if d == [] then [(k, v)]
    else if d[|d| - 1].0 == k then d[..|d| - 1] + [(k, v)]
    else if k !in Keys(d) then d + [(k, v)]
    else
      var front := Put(d[..|d| - 1], k, v);
      assert (front + [d[|d| - 1]])[..|front|] == front;
      front + [d[|d| - 1]]
  }
}

=== FILE: profile.dfy ===
/** The JSON records the crawler receives from the profile lookup, writes to
    its output file, and the renderer reads back. Every key the code reads
    with `.get` is an `Option`: `None` stands for a missing key or a JSON null. */
module Profile {
  import opened Wrappers

  /** `info["core"]`: the handle, display name and creation date. */
  datatype Core = Core(screenName: Option<string>, name: Option<string>, createdAt: Option<string>)

  /** `info["avatar"]`. */
  datatype Avatar = Avatar(imageUrl: Option<string>)

  /** `info["verification"]`; `verified` is the truthiness of its `verified` key. */
  datatype Verification = Verification(verified: bool)

  /** `about_profile["username_changes"]`; `count` is the text Python prints
      for the `count` value (so the integer 0 is the text "0"). */
  datatype UsernameChanges = UsernameChanges(count: Option<string>)

  /** `info["about_profile"]`: where the account is based, the sign-up
      source and the number of renames. */
  datatype About = About(basedIn: Option<string>, source: Option<string>,
                         usernameChanges: Option<UsernameChanges>)

  /** The profile object a lookup returns (`result.data.user_result_by_screen_name.result`).
      `isBlueVerified` is the truthiness of the `is_blue_verified` key. */
  datatype Info = Info(core: Option<Core>, avatar: Option<Avatar>, isBlueVerified: bool,
                       verification: Option<Verification>, restId: Option<string>,
                       about: Option<About>)

  /** The attribute value the crawler is looking for. */
  const TargetRegion: string := "China"

  /** `info["about_profile"]["account_based_in"] == "China"`, where a missing
      key (the `KeyError` the crawler swallows) counts as no match. */
  predicate BasedInTarget(info: Info) {
    info.about.Some? && info.about.value.basedIn == Some(TargetRegion)
  }

  /** One line of the output file as the crawler writes it:
      `{"username": user, "info": info}`. */
  datatype Record = Record(username: string, info: Info)

  /** One line of the output file as the renderer reads it, where either
      key may be missing. */
  datatype UserRecord = UserRecord(username: Option<string>, info: Option<Info>)

  /** The object the renderer reads back from a line the crawler wrote. */
  function AsUserRecord(r: Record): UserRecord {
    UserRecord(Some(r.username), Some(r.info))
  }
}

=== FILE: render.dfy ===
/** The offline renderer of render.py: reading the crawler's output file
    (`load_users`), date reformatting with fallbacks (`format_created_at`)
    and assembling one HTML page with one card per user (`build_html`). */
module Render {
  import opened Wrappers
  import opened Text
  import opened Profile

  // ----- load_users (render.py:9-22)

  /** `json.loads` on one stripped line: the object read, or `None` when it
      raises `JSONDecodeError`. */
  type ParseOracle = string -> Option<UserRecord>

  /** What one line of the file contributes: nothing when it is blank after
      `strip()` or does not parse, otherwise the object it parses to. */
  function LineUsers(line: string, parse: ParseOracle): (r: seq<UserRecord>)
    ensures |r| <= 1
    ensures forall u :: u in r ==> ReadFrom(u, line, parse)
  {
    var stripped := Strip(line);
    StripEmptyIffAllSpace(line);
    if stripped == "" then []
    else match parse(stripped)
      case Some(u) => [u]
      case None => []
  }

  /** `u` is the object that the non-blank line `line` parses to. */
  ghost predicate ReadFrom(u: UserRecord, line: string, parse: ParseOracle) {
    !AllSpace(line) && parse(Strip(line)) == Some(u)
  }

  /** `load_users`: the objects of the non-blank, parseable lines, in file
      order. */
  function LoadUsers(lines: seq<string>, parse: ParseOracle): (r: seq<UserRecord>)
    ensures |r| <= |lines|
    ensures forall u :: u in r ==> exists l :: l in lines && ReadFrom(u, l, parse)
  {
    if lines == [] then []
    else
      var head := LineUsers(lines[0], parse);
      var tail := LoadUsers(lines[1..], parse);
      assert forall u :: u in head ==> ReadFrom(u, lines[0], parse);
      assert forall l :: l in lines[1..] ==> l in lines;
      head + tail
  }

  /** Reading two stretches of a file reads each and keeps file order. */
  lemma {:induction false} LoadUsersAppend(a: seq<string>, b: seq<string>, parse: ParseOracle)
    ensures LoadUsers(a + b, parse) == LoadUsers(a, parse) + LoadUsers(b, parse)
  {
    if a == [] {
      assert a + b == b;
    } else {
      assert (a + b)[1..] == a[1..] + b;
      LoadUsersAppend(a[1..], b, parse);
    }
  }

  /** One line yields one object exactly when it is not all whitespace and
      its stripped text parses, and then the parsed object. */
  lemma LoadUsersLine(line: string, parse: ParseOracle)
    ensures |LoadUsers([line], parse)| == 1 <==> !AllSpace(line) && parse(Strip(line)).Some?
    ensures |LoadUsers([line], parse)| == 1 ==> LoadUsers([line], parse)[0] == parse(Strip(line)).value
    ensures |LoadUsers([line], parse)| <= 1
  {
    StripEmptyIffAllSpace(line);
    assert [line][1..] == [];
  }

  // ----- format_created_at (render.py:24-32)

  /** `datetime.strptime(raw, ...).strftime("%Y-%m-%d")`: the reformatted
      date, or `None` when either call raises. */
  type DateOracle = string -> Option<string>

  /** `format_created_at`: "" for a falsy input, the input itself when the
      date cannot be reformatted, the reformatted date otherwise. */
  function FormatCreatedAt(raw: Option<string>, reformat: DateOracle): (r: string)
    ensures !Truthy(raw) ==> r == ""
    ensures Truthy(raw) && reformat(raw.value).None? ==> r == raw.value
    ensures Truthy(raw) && reformat(raw.value).Some? ==> r == reformat(raw.value).value
    ensures r == "" <==> !Truthy(raw) || reformat(raw.value) == Some("")
  {
    if !Truthy(raw) then ""
    else match reformat(raw.value)
      case Some(date) => date
      case None => raw.value
  }

  // ----- build_html (render.py:34-129)

  /** One entry of the line under a user's handle. */
  datatype MetaItem = Registered(date: string) | Region(country: string) | Source(source: string)
                    | Renames(count: string)

  /** The fixed order of the entries. */
  function Rank(m: MetaItem): nat {
    match m
    case Registered(_) => 0
    case Region(_) => 1
    case Source(_) => 2
    case Renames(_) => 3
  }

  /** Strictly increasing ranks: no entry twice, none out of order. */
  predicate RankSorted(s: seq<MetaItem>) {
    forall i, j :: 0 <= i < j < |s| ==> Rank(s[i]) < Rank(s[j])
  }

  /** The entries of the meta line (render.py:62-70): one per non-empty
      field, in the fixed order date, region, source, rename count. */
  function MetaItems(createdAt: string, country: string, source: string, renames: Option<string>): (r: seq<MetaItem>)
    ensures RankSorted(r)
    ensures forall m :: m in r <==> Shown(m, createdAt, country, source, renames)
  {
    var candidates := [Registered(createdAt), Region(country), Source(source), Renames(Or(renames, ""))];
    assert forall m :: Shown(m, createdAt, country, source, renames) ==> m in candidates;
    FilterKeepsRankSorted(m => Shown(m, createdAt, country, source, renames), candidates);
    Filter(m => Shown(m, createdAt, country, source, renames), candidates)
  }

  /** Whether `m` belongs on the meta line of these fields: the creation
      date, region and source when non-empty, the rename count when truthy. */
  predicate Shown(m: MetaItem, createdAt: string, country: string, source: string, renames: Option<string>) {
    || (m == Registered(createdAt) && createdAt != "")
    || (m == Region(country) && country != "")
    || (m == Source(source) && source != "")
    || (Truthy(renames) && m == Renames(renames.value))
  }

  /** The elements of `s` that `keep` accepts, in their order in `s`. */
  function Filter<T(!new)>(keep: T -> bool, s: seq<T>): (r: seq<T>)
    ensures forall x :: x in r <==> x in s && keep(x)
  {
    if s == [] then []
    else Filter(keep, s[..|s| - 1]) + (if keep(s[|s| - 1]) then [s[|s| - 1]] else [])
  }

  lemma {:induction false} FilterKeepsRankSorted(keep: MetaItem -> bool, s: seq<MetaItem>)
    requires RankSorted(s)
    ensures RankSorted(Filter(keep, s))
  {
    if s != [] {
      var front := s[..|s| - 1];
      assert RankSorted(front);
      FilterKeepsRankSorted(keep, front);
      forall x | x in front ensures Rank(x) < Rank(s[|s| - 1]) {
        var i :| 0 <= i < |front| && front[i] == x;
      }
    }
  }

  function MetaSpan(m: MetaItem): string {
    match m
    case Registered(d) => "<span>注册：" + d + "</span>"
    case Region(c) => "<span>地区：" + c + "</span>"
    case Source(s) => "<span>来源：" + s + "</span>"
    case Renames(n) => "<span>改名次数：" + n + "</span>"
  }

  function MetaSpans(items: seq<MetaItem>): (r: seq<string>)
    ensures |r| == |items|
    ensures forall i :: 0 <= i < |items| ==> r[i] == MetaSpan(items[i])
  {
    if items == [] then [] else [MetaSpan(items[0])] + MetaSpans(items[1..])
  }

  /** The meta line (render.py:72-74): absent without entries, otherwise the
      entries' spans joined by " · " inside one block. */
  function MetaHtml(items: seq<MetaItem>): (r: string)
    ensures r == "" <==> items == []
  {
    if items == [] then ""
    else "<div class=\"user-meta\">" + Join(" · ", MetaSpans(items)) + "</div>"
  }

  /** The verified badge (render.py:57-59), present exactly for verified accounts. */
  function BadgeHtml(verified: bool): (r: string)
    ensures r == "" <==> !verified
  {
    if verified then "<span class=\"badge badge-verified\" title=\"Verified\">✔</span>" else ""
  }

  /** The ID line (render.py:76-78), present exactly when `rest_id` is non-empty. */
  function IdHtml(restId: Option<string>): (r: string)
    ensures r == "" <==> !Truthy(restId)
  {
    if Truthy(restId) then "<div class=\"user-id\">ID: " + restId.value + "</div>" else ""
  }

  /** The fields one card shows. */
  datatype View = View(screenName: string, displayName: string, avatarUrl: string, verified: bool,
                       meta: seq<MetaItem>, restId: Option<string>)

  /** The field selection of render.py:38-55, where a missing or null
      sub-object reads as an empty one. The handle falls back to `username`
      and the display name to the handle when missing or empty; the badge
      flag is `is_blue_verified` or `verification.verified`; the meta entries
      are the non-empty ones among the reformatted creation date, region,
      source and rename count. */
  function SelectView(u: UserRecord, reformat: DateOracle): (v: View)
    ensures var core := if u.info.Some? && u.info.value.core.Some? then u.info.value.core.value
                        else Core(None, None, None);
            && (Truthy(core.screenName) ==> v.screenName == core.screenName.value)
            && (!Truthy(core.screenName) ==> v.screenName == Or(u.username, ""))
            && (Truthy(core.name) ==> v.displayName == core.name.value)
            && (!Truthy(core.name) ==> v.displayName == v.screenName)
    ensures v.verified <==> u.info.Some? && (u.info.value.isBlueVerified
                              || (u.info.value.verification.Some? && u.info.value.verification.value.verified))
    ensures v.restId == if u.info.Some? then u.info.value.restId else None
    ensures var info := if u.info.Some? then u.info.value else Info(None, None, false, None, None, None);
            var avatar := info.avatar.GetOr(Avatar(None));
            v.avatarUrl == Or(avatar.imageUrl, "")
    ensures var info := if u.info.Some? then u.info.value else Info(None, None, false, None, None, None);
            var core := info.core.GetOr(Core(None, None, None));
            var about := info.about.GetOr(About(None, None, None));
            var renames := if about.usernameChanges.Some? then about.usernameChanges.value.count else None;
            && RankSorted(v.meta)
            && forall m :: m in v.meta <==> Shown(m, FormatCreatedAt(core.createdAt, reformat),
                                                  Or(about.basedIn, ""), Or(about.source, ""), renames)
  {
    var info := if u.info.Some? then u.info.value else Info(None, None, false, None, None, None);
    var core := info.core.GetOr(Core(None, None, None));
    var avatar := info.avatar.GetOr(Avatar(None));
    var about := info.about.GetOr(About(None, None, None));
    var screenName := Or(core.screenName, Or(u.username, ""));
    var displayName := Or(core.name, screenName);
    var createdAt := FormatCreatedAt(core.createdAt, reformat);
    var verified := info.isBlueVerified || (info.verification.Some? && info.verification.value.verified);
    var renames := if about.usernameChanges.Some? then about.usernameChanges.value.count else None;
    var meta := MetaItems(createdAt, Or(about.basedIn, ""), Or(about.source, ""), renames);
    View(screenName, displayName, Or(avatar.imageUrl, ""), verified, meta, info.restId)
  }

  /** The card template of render.py:81-98 filled with a view. */
  function CardHtml(v: View): string {
    "\n        <article class=\"user-card\">\n"
    + "            <div class=\"user-avatar-wrap\">\n"
    + "                <a href=\"https://twitter.com/" + v.screenName + "\" target=\"_blank\">\n"
    + "                    <img src=\"" + v.avatarUrl + "\" alt=\"" + v.displayName
    + " avatar\" loading=\"lazy\" class=\"user-avatar\" />\n"
    + "                </a>\n"
    + "            </div>\n"
    + "            <div class=\"user-content\">\n"
    + "                <div class=\"user-title-row\">\n"
    + "                    <h2 class=\"user-name\" title=\"" + v.displayName + "\">" + v.displayName + "</h2>\n"
    + "                    " + BadgeHtml(v.verified) + "\n"
    + "                </div>\n"
    + "                <div class=\"user-handle\">@" + v.screenName + "</div>\n"
    + "                " + MetaHtml(v.meta) + "\n"
    + "                " + IdHtml(v.restId) + "\n"
    + "            </div>\n"
    + "        </article>\n"
    + "        "
  }

  function Card(u: UserRecord, reformat: DateOracle): string {
    CardHtml(SelectView(u, reformat))
  }

  /** `[f(x) for x in xs]`. */
  function MapSeq<A, B>(f: A -> B, xs: seq<A>): (r: seq<B>)
    ensures |r| == |xs|
    ensures forall i :: 0 <= i < |xs| ==> r[i] == f(xs[i])
  {
    if xs == [] then [] else MapSeq(f, xs[..|xs| - 1]) + [f(xs[|xs| - 1])]
  }

  lemma MapSeqAppend<A, B>(f: A -> B, a: seq<A>, b: seq<A>)
    ensures MapSeq(f, a + b) == MapSeq(f, a) + MapSeq(f, b)
  {
    assert forall i :: 0 <= i < |a + b| ==> MapSeq(f, a + b)[i] == (MapSeq(f, a) + MapSeq(f, b))[i];
  }

  /** The card renderer for a given date oracle. */
  function CardOf(reformat: DateOracle): UserRecord -> string {
    u => Card(u, reformat)
  }

  /** The loop of render.py:37-99: one card per user, in input order. */
  function Cards(users: seq<UserRecord>, reformat: DateOracle): (r: seq<string>)
    ensures |r| == |users|
    ensures forall i :: 0 <= i < |users| ==> r[i] == Card(users[i], reformat)
  {
    MapSeq(CardOf(reformat), users)
  }

  /** The fixed text of the page template, in the pieces between the places
      where the title, the stylesheet name, the user count and the cards go. */
  datatype PageMarkup = PageMarkup(beforeTitle: string, titleToCss: string, cssToTitle: string,
                                   titleToCount: string, countToCards: string, afterCards: string)

  /** The template of render.py:103-127. */
  const Markup: PageMarkup := PageMarkup(
    "<!doctype html>\n"
    + "<html lang=\"zh-CN\">\n"
    + "<head>\n"
    + "    <meta charset=\"utf-8\">\n"
    + "    <title>",
    "</title>\n"
    + "    <meta name=\"viewport\" content=\"width=device-width,initial-scale=1\">\n"
    + "    <link rel=\"stylesheet\" href=\"",
    "\">\n"
    + "</head>\n"
    + "<body>\n"
    + "    <div class=\"page\">\n"
    + "        <header class=\"page-header\">\n"
    + "            <h1>\n"
    + "            ",
    "\n"
    + "            <a href=\"https://github.com/pluto0x0/X_based_china\" target=\"_blank\">"
    + "<img src=\"https://img.shields.io/badge/GitHub-Repository-181717?style=flat-square&logo=github&logoColor=white\""
    + " alt=\"GitHub Repository\"></a>\n"
    + "            </h1>\n"
    + "            <p class=\"page-subtitle\">共 ",
    " 个用户</p>\n"
    + "        </header>\n"
    + "        <main class=\"page-main\">\n"
    + "            <section class=\"user-grid\">\n"
    + "                ",
    "\n            </section>\n"
    + "        </main>\n"
    + "    </div>\n"
    + "</body>\n"
    + "</html>\n")

  const DefaultCssFilename: string := "styles.css"
  const DefaultTitle: string := "Twitter Accounts Based in China"

  /** The page up to the user count. */
  function PageHead(m: PageMarkup, cssFilename: string, title: string): string {
    m.beforeTitle + title + m.titleToCss + cssFilename + m.cssToTitle + title + m.titleToCount
  }

  /** The page after the user count. */
  function PageRest(m: PageMarkup, cards: seq<string>): string {
    m.countToCards + Join("\n", cards) + m.afterCards
  }

  /** `build_html` over the markup `m`: the page opens with the head (markup,
      title and stylesheet name), the subtitle right after it holds the number
      of users in decimal, and the page closes with the users' cards, in input
      order and joined by newlines, inside the grid. */
  function BuildHtml(m: PageMarkup, users: seq<UserRecord>, cssFilename: string, title: string,
                     reformat: DateOracle): (r: string)
    ensures PageHead(m, cssFilename, title) <= r
    ensures SubtitleReads(r, |PageHead(m, cssFilename, title)|, |users|)
    ensures EndsWith(r, m.countToCards + Join("\n", Cards(users, reformat)) + m.afterCards)
    ensures |r| == |PageHead(m, cssFilename, title)| + |Decimal(|users|)|
                   + |m.countToCards + Join("\n", Cards(users, reformat)) + m.afterCards|
  {
    var head := PageHead(m, cssFilename, title);
    var rest := PageRest(m, Cards(users, reformat));
    CountReads(head, |users|, rest);
    Frame(head, Decimal(|users|), rest);
    head + Decimal(|users|) + rest
  }

  /** `build_html(users)` with render.py's markup and default arguments. */
  function BuildPage(users: seq<UserRecord>, reformat: DateOracle): string {
    BuildHtml(Markup, users, DefaultCssFilename, DefaultTitle, reformat)
  }

  /** `page` ends with `suffix`. */
  ghost predicate EndsWith(page: string, suffix: string) {
    |suffix| <= |page| && page[|page| - |suffix|..] == suffix
  }

  lemma Frame(a: string, b: string, c: string)
    ensures a <= a + b + c && EndsWith(a + b + c, c)
  {
    assert (a + b + c)[..|a|] == a;
    assert (a + b + c)[|a + b|..] == c;
  }

  /** The digits of `n` placed after `head` read back as `n`. */
  lemma CountReads(head: string, n: nat, rest: string)
    ensures SubtitleReads(head + Decimal(n) + rest, |head|, n)
  {
    var page := head + Decimal(n) + rest;
    assert page[|head|..|head| + |Decimal(n)|] == Decimal(n);
    DecimalRoundTrip(n);
  }

  /** From position `k`, `page` holds the digits of `n`, with no leading zero,
      and they parse back to `n`. */
  ghost predicate SubtitleReads(page: string, k: nat, n: nat) {
    var m := |Decimal(n)|;
    && k + m <= |page|
    && (forall i :: k <= i < k + m ==> IsDigit(page[i]))
    && (m > 1 ==> page[k] != '0')
    && ParseDecimal(page[k..k + m]) == n
  }

  /** Rendering two lists of users back to back puts the first list's cards,
      a newline, and the second list's cards into the grid. */
  lemma CardsSectionAppend(a: seq<UserRecord>, b: seq<UserRecord>, reformat: DateOracle)
    requires a != [] && b != []
    ensures Join("\n", Cards(a + b, reformat))
            == Join("\n", Cards(a, reformat)) + "\n" + Join("\n", Cards(b, reformat))
  {
    MapJoinAppend(CardOf(reformat), a, b);
  }

  lemma MapJoinAppend<A>(f: A -> string, a: seq<A>, b: seq<A>)
    requires a != [] && b != []
    ensures Join("\n", MapSeq(f, a + b)) == Join("\n", MapSeq(f, a)) + "\n" + Join("\n", MapSeq(f, b))
  {
    MapSeqAppend(f, a, b);
    JoinAppend("\n", MapSeq(f, a), MapSeq(f, b));
  }

  /** A record the crawler wrote renders with the target region in its meta
      line and its username as the handle when the profile has none. */
  lemma WrittenRecordShowsRegion(rec: Record, reformat: DateOracle)
    requires BasedInTarget(rec.info)
    ensures var v := SelectView(AsUserRecord(rec), reformat);
            && Region(TargetRegion) in v.meta
            && MetaHtml(v.meta) != ""
            && (rec.info.core.None? ==> v.screenName == rec.username)
  {
  }
}

=== FILE: scenarios.dfy ===
/** Concrete runs of one crawl iteration, with oracles written out. */
module CrawlScenarios {
  import opened Wrappers
  import opened Profile
  import opened Client
  import opened Dict
  import opened Crawler

  function BasedIn(region: string): Info {
    Info(None, None, false, None, None, Some(About(Some(region), None, None)))
  }

  /** Account "A" follows "B", an entry without a screen name and "C", on a
      single page; other accounts follow nobody. */
  function Follows(): PageOracle {
    (user: string, cursor: Option<string>) =>
      if user == "A" then Page(Some("ok"), FollowingsOfA(), false, None)
      else Page(Some("ok"), [], false, None)
  }

  /** "B" is based in the target region, "C" elsewhere; other lookups fail. */
  function Profiles(): LookupOracle {
    (user: string) =>
      if user == "B" then Found(BasedIn(TargetRegion))
      else if user == "C" then Found(BasedIn("Japan"))
      else LookupFailed
  }

  /** The run over these endpoints with `max_followings` 400 and no hit limit. */
  function Graph(): Env {
    MainEnv(Follows(), Profiles(), 400, 0, 10)
  }

  function FollowingsOfA(): seq<Following> {
    [Following(Some("B")), Following(None), Following(Some("C"))]
  }

  lemma FetchOfA()
    ensures GetFollowings(Follows(), "A", 400, 10).followings == FollowingsOfA()
  {
    var p := Follows()("A", None);
    assert CursorParam(None) == None;
    assert p == Page(Some("ok"), FollowingsOfA(), false, None);
    assert Paginate(Follows(), "A", 400, None, [], 10) == Fetched(FollowingsOfA(), [p]);
  }

  lemma NamesOfA()
    ensures ScreenNames(FollowingsOfA()) == ["B", "C"]
  {
    var fs := FollowingsOfA();
    assert fs[1..][1..] == [Following(Some("C"))];
    assert fs[1..][1..][1..] == [];
    assert ScreenNames(fs[1..][1..]) == ["C"];
    assert ScreenNames(fs[1..]) == ["C"];
  }

  lemma LookupsOfA()
    ensures GetUserInfo(Profiles(), ["B", "C"]) == [("B", BasedIn(TargetRegion)), ("C", BasedIn("Japan"))]
  {
    var lookup := Profiles();
    assert ["B", "C"][..1] == ["B"];
    assert ["B"][..0] == [];
    var d := GetUserInfo(lookup, ["B"]);
    assert lookup("B") == Found(BasedIn(TargetRegion));
    assert d == [("B", BasedIn(TargetRegion))];
    assert lookup("C") == Found(BasedIn("Japan"));
    assert "C" !in Keys(d);
  }

  /** The lookup batch for "A": "B" and "C" both resolve, in that order, and
      the entry without a screen name is never looked up. */
  lemma BatchOfA()
    ensures Graph().batch("A") == [("B", BasedIn(TargetRegion)), ("C", BasedIn("Japan"))]
  {
    var followings := GetFollowings(Follows(), "A", 400, 10).followings;
    assert Graph().batch("A") == Batch(Follows(), Profiles(), 400, 10, "A");
    assert Batch(Follows(), Profiles(), 400, 10, "A") == GetUserInfo(Profiles(), ScreenNames(followings));
    FetchOfA();
    NamesOfA();
    LookupsOfA();
  }

  /** Processing the batch of "A" from an empty queue, with `visited`
      either empty or already holding "B". */
  lemma ProcessBatchOfA(visited: set<string>)
    requires visited == {} || visited == {"B"}
    ensures var b := [("B", BasedIn(TargetRegion)), ("C", BasedIn("Japan"))];
            ProcessBatch(State([], visited, [], 0), b)
            == if visited == {} then State(["B"], {"B"}, [Record("B", BasedIn(TargetRegion))], 1)
               else State(["B"], {"B"}, [], 0)
  {
    var b := [("B", BasedIn(TargetRegion)), ("C", BasedIn("Japan"))];
    var s1 := ProcessUser(State([], visited, [], 0), "B", BasedIn(TargetRegion));
    assert BasedInTarget(BasedIn(TargetRegion)) && !BasedInTarget(BasedIn("Japan"));
    assert b[1..] == [("C", BasedIn("Japan"))];
    assert b[1..][1..] == [];
    assert ProcessBatch(s1, b[1..]) == ProcessBatch(s1, [])== s1;
  }

  /** Popping "A" writes "B" once, counts one hit and queues "B"; "C" is
      neither written nor queued, and "A" is not put back. */
  lemma FirstAccountWritesOnlyTarget()
    ensures Step(Graph(), State(["A"], {}, [], 0))
            == State(["B"], {"B"}, [Record("B", BasedIn(TargetRegion))], 1)
  {
    var s := State(["A"], {}, [], 0);
    assert s.(queue := s.queue[1..]) == State([], {}, [], 0);
    BatchOfA();
    ProcessBatchOfA({});
  }

  /** With "B" already in the existing output file, popping "A" writes
      nothing and counts no hit, but still queues "B". */
  lemma KnownTargetIsQueuedNotWritten()
    ensures Step(Graph(), State(["A"], {"B"}, [], 0)) == State(["B"], {"B"}, [], 0)
  {
    var s := State(["A"], {"B"}, [], 0);
    assert s.(queue := s.queue[1..]) == State([], {"B"}, [], 0);
    BatchOfA();
    ProcessBatchOfA({"B"});
  }
}

=== FILE: text.dfy ===
/** String helpers shared by the crawler and the renderer: Python truthiness
    of optional strings, `str.strip`, `str.join` and decimal rendering. */
module Text {
  import opened Wrappers

  /** Python truthiness of an optional string: absent (`None`) and `""` are falsy. */
  predicate Truthy(o: Option<string>) {
    o.Some? && o.value != ""
  }

  /** Python's `o or fallback` for an optional string. */
  function Or(o: Option<string>, fallback: string): (r: string)
    ensures Truthy(o) ==> r == o.value
    ensures !Truthy(o) ==> r == fallback
  {
    if Truthy(o) then o.value else fallback
  }

  /** The characters Python's `str.isspace` accepts; all of them lie in the
      Basic Multilingual Plane. */
  predicate IsSpace(c: char) {
    c == ' ' || ('\t' <= c <= '\r') || ('\U{1c}' <= c <= '\U{1f}')
    || c == '\U{85}' || c == '\U{a0}' || c == '\U{1680}'
    || ('\U{2000}' <= c <= '\U{200a}') || c == '\U{2028}' || c == '\U{2029}'
    || c == '\U{202f}' || c == '\U{205f}' || c == '\U{3000}'
  }

  predicate AllSpace(s: string) {
    forall k :: 0 <= k < |s| ==> IsSpace(s[k])
  }

  /** Drops leading whitespace: the result is a suffix of `s`, everything
      dropped is whitespace, and the result does not start with whitespace. */
  function StripLeft(s: string): (r: string)
    ensures |r| <= |s| && r == s[|s| - |r|..]
    ensures AllSpace(s[..|s| - |r|])
    ensures r == [] || !IsSpace(r[0])
  {
    if s != [] && IsSpace(s[0]) then
      var r := StripLeft(s[1..]);
      assert s[..|s| - |r|] == [s[0]] + s[1..][..|s| - 1 - |r|];
      r
    else s
  }

  /** Drops trailing whitespace: the result is a prefix of `s`, everything
      dropped is whitespace, and the result does not end with whitespace. */
  function StripRight(s: string): (r: string)
    ensures |r| <= |s| && r == s[..|r|]
    ensures AllSpace(s[|r|..])
    ensures r == [] || !IsSpace(r[|r| - 1])
  {
    if s != [] && IsSpace(s[|s| - 1]) then
      var r := StripRight(s[..|s| - 1]);
      assert s[|r|..] == s[..|s| - 1][|r|..] + [s[|s| - 1]];
      r
    else s
  }

  /** Python's `s.strip()`. */
  function Strip(s: string): (r: string)
    ensures |r| <= |s|
    ensures r == [] || (!IsSpace(r[0]) && !IsSpace(r[|r| - 1]))
  {
    StripRight(StripLeft(s))
  }

  /** A line is blank for `if not line.strip()` exactly when it is all whitespace. */
  lemma StripEmptyIffAllSpace(s: string)
    ensures Strip(s) == [] <==> AllSpace(s)
  {
  }

  /** Python's `sep.join(xs)`: the strings of `xs` in order with one `sep`
      between neighbours. */
  function Join(sep: string, xs: seq<string>): (r: string)
    ensures xs == [] ==> r == ""
    ensures |xs| == 1 ==> r == xs[0]
  {
    if xs == [] then ""
    else if |xs| == 1 then xs[0]
    else Join(sep, xs[..|xs| - 1]) + sep + xs[|xs| - 1]
  }

  /** Joining a concatenation joins the two parts and puts one separator
      between them: every element keeps its place and order. */
  lemma {:induction false} JoinAppend(sep: string, a: seq<string>, b: seq<string>)
    requires a != [] && b != []
    ensures Join(sep, a + b) == Join(sep, a) + sep + Join(sep, b)
    decreases |b|
  {
    var ab := a + b;
    var last := b[|b| - 1];
    assert ab[|ab| - 1] == last;
    if |b| == 1 {
      assert ab[..|ab| - 1] == a;
    } else {
      var b' := b[..|b| - 1];
      assert ab[..|ab| - 1] == a + b';
      JoinAppend(sep, a, b');
      calc {
        Join(sep, ab);
        Join(sep, a + b') + sep + last;
        (Join(sep, a) + sep + Join(sep, b')) + sep + last;
        Join(sep, a) + sep + (Join(sep, b') + sep + last);
        Join(sep, a) + sep + Join(sep, b);
      }
    }
  }

  function DigitChar(d: nat): (c: char)
    requires d < 10
  {
    ['0', '1', '2', '3', '4', '5', '6', '7', '8', '9'][d]
  }

  predicate IsDigit(c: char) {
    '0' <= c <= '9'
  }

  /** Value of one decimal digit character. */
  function DigitValue(c: char): (d: nat)
    requires IsDigit(c)
    ensures d < 10 && DigitChar(d) == c
  {
    (c as int - '0' as int)
  }

  /** Python's `str(n)` for a natural number: its decimal digits, most
      significant first, with no leading zero. */
  function Decimal(n: nat): (r: string)
    ensures r != []
    ensures forall k :: 0 <= k < |r| ==> IsDigit(r[k])
    ensures |r| > 1 ==> r[0] != '0'
  {
    if n < 10 then [DigitChar(n)] else Decimal(n / 10) + [DigitChar(n % 10)]
  }

  /** Reads a string of decimal digits back as a number. */
  function ParseDecimal(s: string): nat
    requires forall k :: 0 <= k < |s| ==> IsDigit(s[k])
  {
    if s == [] then 0 else ParseDecimal(s[..|s| - 1]) * 10 + DigitValue(s[|s| - 1])
  }

  /** The decimal rendering of a number reads back as that number. */
  lemma {:induction false} DecimalRoundTrip(n: nat)
    ensures ParseDecimal(Decimal(n)) == n
  {
    if n >= 10 {
      var s := Decimal(n);
      assert s[..|s| - 1] == Decimal(n / 10);
      DecimalRoundTrip(n / 10);
    }
  }
}

=== FILE: wrappers.dfy ===
/** Option and Result, used for JSON fields that may be absent and for
    operations that may abort. */
module Wrappers {

  /** A value that may be absent: a missing JSON key, a null, a failed parse. */
  datatype Option<+T> = None | Some(value: T) {

    /** Returns the encapsulated value, or `default` when absent. */
    function GetOr(default: T): T {
      match this
      case Some(v) => v
      case None => default
    }
  }

  /** The outcome of an operation that either produces a value or aborts. */
  datatype Result<+R, +E> = Success(value: R) | Failure(error: E)
}
